=== FILE: README.md ===
# Live assignment dashboard — a Dafny model of its sequential core

The dashboard shows a grid of one to four panels in the browser, each bound to a
classroom assignment and listing its students with a three-segment progress bar.
The server keeps, for every socket connection, one repeating timer per
`watchAssignment` request; each timer re-reads the assignment's roster and pushes
it to that socket as an `assignmentUpdate` event.

The model covers the three pieces of deterministic logic in that design:

- `Progress` (`progress.dfy`): the progress-bar arithmetic of a student card.
  The incorrect count is `max(c-k, 0)` and the remaining count is `max(t-c, 0)`.
  The three widths are exact real percentages of `t`. When `t <= 0` the bar is still drawn but empty: all three widths are 0.
  Absent columns read as 0.
- `Panels` (`panels.dfy`): the client controller state. This is the layout count, the
  panel-to-assignment bindings, the set of `(panel, assignment)` update handlers
  registered so far, and what each panel renders. Layout clicks, selector
  changes (with their load folded in as one atomic step) and incoming updates
  are pure transitions, and `Run` replays a trace of them. The state also logs
  the `watchAssignment` requests the page sends after each successful load.
- `Poller` (`poller.dfy`): the server registry, a map from connection id to the
  list of assignment ids its timers poll. It covers connect, `watchAssignment`, a timer
  firing with a successful or failed query, and disconnect, and `Run` replays a trace.
- `Session` (`session.dfy`): links the two sides. The requests a page sends
  become exactly that many timers on its connection.
- `Common` (`common.dfy`): `Option` and the assignment id type (a string; the
  empty string is the selector's "nothing selected" entry).

Inputs that come from outside — HTTP responses, query results, which timer fires
when — are parameters of the transitions (`LoadInputs`, the `fetched` rows of a
firing, the order of events in a trace).

In these places the model follows the code where a reader might expect otherwise:

- A shrinking layout does not unbind the hidden panels. They keep their bindings and
  handlers and go on taking updates (`Panels.HiddenPanelStillUpdated`).
- Repeated `watchAssignment` requests are not de-duplicated. Each one adds a timer
  (`Poller.RepeatedWatchAccumulates`).
- A panel's rendering does not always reflect its binding. A failed load rebinds
  the panel but leaves the previous roster on screen (`Panels.FailedLoadLeavesStaleRoster`).
  An old handler can then render one assignment's students under another's header
  (`Panels.OldHandlerRevivedByFailedReload`).
- Reloading the same assignment into the same panel sends another
  `watchAssignment` request, so the server starts another timer
  (`Panels.ReloadSendsAnotherWatch`, `Session.PanelLoadsBecomeTimers`).

## Model

| member | source | states |
|---|---|---|
| Progress.PositivePart | public/js/dashboard.js:193-194 | the incorrect count `c-k` and remaining count `t-c` are clamped at 0: the result is never negative, is at least its argument, and is either 0 or the argument (so it is `max(x,0)`) |
| Progress.SegmentWidths | public/js/dashboard.js:196-198 | all three widths are 0 when `t <= 0`; otherwise each width times `t` is 100 times its count; incorrect and remaining widths are never negative |
| Progress.RowWidths | public/js/dashboard.js:188-198 | a row with all three columns present draws exactly `SegmentWidths` of them; columns are read through `OrZero` (the logical-or-with-0 reads), so a card with no total draws an empty bar (all widths 0), one with no correct count has an empty correct segment, and one with neither current nor correct count but a positive total is all remaining |
| Progress.AbsentReadsAsZero | public/js/dashboard.js:188-192 | each absent column (current index, total or correct count) draws exactly the bar that a present 0 in that column draws |
| Progress.RosterWidths | public/js/dashboard.js:267-278 | the update path draws one bar per student, in roster order, each from that student's row |
| Progress.CountsCoverTotal | public/js/dashboard.js:193-194 | correct + incorrect + remaining counts are at least `t`, and equal `t` exactly when `k <= c <= t` |
| Progress.WidthsSumTo100Iff | public/js/dashboard.js:193-198 | for `t > 0` the widths sum to at least 100, and to exactly 100 if and only if `k <= c <= t` |
| Progress.SampleRosterWidths | public/js/dashboard.js:196-198 | rows 18/25/15, 25/25/23 and 14/25/10 give bars 60/12/28, 92/8/0 and 40/16/44 |
| Panels.PanelBars | public/js/dashboard.js:185-198 | a placeholder panel draws no bars; a roster panel draws one bar per student, each from `Progress.RowWidths` |
| Panels.SetLayout | public/js/dashboard.js:19-37 | a layout click sets the layout count to `n`, and leaves every binding, handler and rendering as it was, including those of panels at `n` and beyond |
| Panels.Selectors | public/js/dashboard.js:84-106 | the rebuilt selectors are one per shown panel, and each preselects exactly that panel's existing binding |
| Panels.Load | public/js/dashboard.js:144-157 | a load succeeds exactly when the assignment list arrives, contains the id, and the roster arrives; it is "not found" exactly when the list arrives without the id |
| Panels.Select | public/js/dashboard.js:128-141 | a non-empty value binds exactly that panel to it, even when the load fails; the empty value unbinds it and shows the placeholder; other panels' bindings and renderings are unchanged; the `(p, value)` handler is added and one `watchAssignment(value)` request is sent exactly when the load succeeds |
| Panels.AtMostOneIdFires | public/js/dashboard.js:249 | however many handlers a panel has collected, the binding test lets updates of at most one assignment reach it at a time: if the guard passes for `a` and for `b` on the same panel, `a == b` |
| Panels.OnUpdate | public/js/dashboard.js:248-259 | a panel's rendering changes only if its handler for the id exists, it is bound to the id, and it has a roster; every such panel gets the new students under its old header |
| Panels.ListenersOnlyGrow | public/js/dashboard.js:238-253 | no trace of events removes a registered handler |
| Panels.PanelFrozenWithoutItsUpdates | public/js/dashboard.js:249 | without a selector change on panel `p` and without an update for the assignment `p` is bound to, `p` keeps its binding and rendering through any trace (an unbound panel takes no update at all) |
| Panels.RebindThenOldUpdateIgnored | public/js/dashboard.js:134-140 | after panel `p` is rebound or unbound away from an assignment, an update for that assignment leaves `p` unchanged |
| Panels.HiddenPanelStillUpdated | public/js/dashboard.js:116-124 | a panel hidden by a smaller layout stays bound and still takes its assignment's updates |
| Panels.FailedLoadLeavesStaleRoster | public/js/dashboard.js:134-136 | after a failed load, a panel can be bound to one assignment while it renders another's roster |
| Panels.OldHandlerRevivedByFailedReload | public/js/dashboard.js:248-252 | load A1, load A2, then a failed reload of A1: the old `(0, A1)` handler renders A1's students under the A2 header |
| Panels.RostersHaveHandlersInvariant | public/js/dashboard.js:159-163 | every transition keeps this rule: a panel showing a roster has a registered handler for the assignment in its header |
| Panels.ReachableRostersHaveHandlers | public/js/dashboard.js:159-163 | every state reachable from the loaded page satisfies that rule |
| Panels.BindingsNonEmptyInvariant | public/js/dashboard.js:134-138 | no transition stores an empty id as a binding: the empty value deletes the binding instead |
| Panels.ReachableBindingsNonEmpty | public/js/dashboard.js:104-105 | in every reachable state each binding is a non-empty (truthy) id, so the preselection test `if (panelAssignments[i])` holds exactly for the bound panels |
| Panels.WatchesHaveHandlersStep | public/js/dashboard.js:244-252 | each transition keeps this rule: every sent `watchAssignment` id has a registered handler for it |
| Panels.WatchesHaveHandlersInvariant | public/js/dashboard.js:244-252 | every trace keeps that rule |
| Panels.ReachableWatchesHaveHandlers | public/js/dashboard.js:244-252 | every state reachable from the loaded page satisfies that rule |
| Panels.ReloadSendsAnotherWatch | public/js/dashboard.js:245 | loading the same assignment into the same panel twice sends two `watchAssignment` requests for it |
| Panels.RenderPathsAgree | public/js/dashboard.js:268-278 | the initial render of a load and a later update with the same rows draw the same bars |
| Poller.Connect | src/index.js:100-103 | a new connection starts with an empty timer list, and no other connection's list changes |
| Poller.Watch | src/index.js:105-121 | a watch request adds exactly one timer for the id to that connection, and no other id's or connection's timers change |
| Poller.Tick | src/index.js:109-118 | a firing pushes exactly when its query succeeds; the push goes to the owning connection only and carries that timer's own id and the fetched rows |
| Poller.Disconnect | src/index.js:124-128 | disconnect leaves no timer of that connection, even when it had none, and keeps the other connections' timers |
| Poller.Step | src/index.js:100-128 | the socket events: a firing never changes the registry, and a push comes only from a firing of a live timer, goes to its owner and carries that timer's id; a watch on a gone connection does nothing; a watch adds the id to its connection; disconnect removes the connection; other connections keep their timers |
| Poller.TickKeepsTimer | src/index.js:116-119 | a firing leaves the registry unchanged; a failed one pushes nothing and its timer stays registered |
| Poller.RepeatedWatchAccumulates | src/index.js:105-121 | `m` watch requests for the same id leave `m` more timers for it |
| Poller.DuplicateTimersBothPush | src/index.js:105-121 | after two watch requests for A1, the two timers each push A1's rows to the same socket |
| Poller.WatchesBecomeTimers | src/index.js:105-121 | a stream of watch requests on a live connection grows its timers by exactly the multiset of requested ids |
| Poller.EmissionsCarryWatchedIds | src/index.js:109-115 | every push of a trace goes to a connection that was polling, or asked in the trace to poll, the pushed assignment |
| Poller.NoEmissionAfterDisconnect | src/index.js:124-128 | with no reconnection under the same id, a disconnected connection gets no timer and no push from a firing that starts after the disconnect, for the rest of any trace |
| Poller.DisconnectSilences | src/index.js:124-128 | after disconnect, no firing that starts later in a trace without a reconnection pushes to that connection |
| Poller.OtherConnectionsIsolated | src/index.js:100-103 | events on other connections never change a connection's timer list |
| Session.PanelLoadsBecomeTimers | public/js/dashboard.js:245 | replayed on a fresh connection, the requests a page sends leave that connection with exactly one timer per successful load, repeats included |

## Left out

- Page markup is not modelled. This covers card and panel HTML, the placeholder text, and the option lists of the selectors (`updateSelectorsWithAssignments`, `fetchAssignments`). Panels are abstracted to "placeholder or roster".
- Student names, scores and ids on a card are not modelled, because they are printed verbatim. The rounded percent-correct label is left out too, because it is floating point (`Math.round`). Widths are exact reals.
- Layout button ids are not parsed in the model. `SetLayout` takes the parsed count, because the buttons are defined in a page template that is not part of this model.
- A bound index with no panel element is not modelled; there `updatePanel` would throw and the load would fail. The model assumes every bound index has a panel.
- `Panels.Selectors` states the preselection the code intends at lines 104-106. How a browser `<select>` treats a value set before its options exist is not modelled.
- Duplicate handlers collapse in the model, because handlers form a set. Registering `(p, id)` twice makes the code render the same rows twice, which has the same effect.
- Poller.NoEmissionAfterDisconnect: a firing is one atomic event in the model. In the code a firing awaits its query before it emits, and `clearInterval` does not cancel a firing whose query is still pending. Such a firing still calls `emit` on the closed socket, and the transport drops it. The lemma and `Poller.DisconnectSilences` speak of firings that start after the disconnect, and so of pushes that are delivered.
- `Select` events are accepted for any panel index. In the page, selectors exist only for shown panels after a layout click, so the model over-approximates the events the page can produce. The trace lemmas hold for every event sequence, so they also hold for the real ones.
- Asynchronous interleaving is not modelled. A load happens atomically inside `Select`, and timer firings are trace events in arbitrary order. The one-second cadence is not modelled.
- HTTP routes, page views, static serving, configuration and the database connection are left out (src/index.js:1-97, 131-135). So is the SQL query itself: a firing's rows are an input, and their ordering comes from the database.
- The client-side `intervalIds` array is left out, because it is never filled, so its `clearInterval` calls never run.
- JavaScript's loose `==` on ids is not modelled. Ids are strings compared for equality.
- The tick's error logging and the connection logging are left out.

=== FILE: common.dfy ===
/** Definitions shared by the client and server halves of the dashboard model. */
module Common {

  /** A value that may be absent: a missing JSON field, a SQL NULL, a failed fetch. */
  datatype Option<+T> = None | Some(value: T)

  /** Assignment identifiers travel as the string value of a `<select>` option and
      are echoed back unchanged by the server, so one string type serves both
      sides. The empty string is the selector's "Select an assignment..." entry. */
  type AssignmentId = string
}

=== FILE: panels.dfy ===
/** The browser-side panel controller: the layout count, the panel-to-assignment
    bindings, the `assignmentUpdate` listeners registered so far, and what each
    panel currently renders. Every user action and every push event is a pure
    transition on this state. */
module Panels {
  import opened Common
  import Progress

  type PanelIndex = nat

  /** What a panel shows: the placeholder (no roster container), or the header of
      the assignment it last loaded with a roster of student rows. */
  datatype View = Placeholder | Roster(header: AssignmentId, students: seq<Progress.Student>)

  /** The controller state. `listeners` holds one `(panel, assignment)` pair per
      handler registered on the socket; handlers are never removed. `views` has no
      entry for a panel that was never rendered into. `watchesSent` is the log of
      `watchAssignment` requests sent to the server, oldest first. */
  datatype Dashboard = Dashboard(
    activePanels: nat,
    bindings: map<PanelIndex, AssignmentId>,
    listeners: set<(PanelIndex, AssignmentId)>,
    views: map<PanelIndex, View>,
    watchesSent: seq<AssignmentId>)

  /** The state when the page has loaded: one panel, nothing bound, nothing sent. */
  const Initial := Dashboard(1, map[], {}, map[], [])

  function ViewOf(d: Dashboard, p: PanelIndex): View {
    if p in d.views then d.views[p] else Placeholder
  }

  /** A panel is displayed exactly when its index is below the layout count (the
      index test that shows or hides each panel after a layout click). */
  predicate Shown(d: Dashboard, p: PanelIndex) {
    p < d.activePanels
  }

  function Binding(d: Dashboard, p: PanelIndex): Option<AssignmentId> {
    if p in d.bindings then Some(d.bindings[p]) else None
  }

  /** The bars of the cards a panel renders: one per student of its roster. */
  function PanelBars(d: Dashboard, p: PanelIndex): (bars: seq<Progress.Widths>)
    ensures ViewOf(d, p).Placeholder? ==> bars == []
    ensures ViewOf(d, p).Roster? ==>
              |bars| == |ViewOf(d, p).students|
              && forall i :: 0 <= i < |bars| ==>
                   bars[i] == Progress.RowWidths(ViewOf(d, p).students[i])
  {
    match ViewOf(d, p)
    case Placeholder => []
    case Roster(_, students) => Progress.RosterWidths(students)
  }

  // ----- Layout -----

  /** A layout button: the layout count becomes `n`; no binding, listener or
      rendered roster is touched, so panels at `n` and beyond keep theirs and are
      only hidden. */
  function SetLayout(d: Dashboard, n: nat): (r: Dashboard)
    ensures r.activePanels == n
    ensures r.bindings == d.bindings && r.listeners == d.listeners && r.views == d.views
    ensures r.watchesSent == d.watchesSent
  {
    d.(activePanels := n)
  }

  /** The selectors rebuilt after a layout change: one per shown panel, each
      preselecting that panel's current binding, or the empty entry. The code
      tests the binding for truthiness; `ReachableBindingsNonEmpty` shows that a
      stored binding is never the falsy `""`, so presence is the same test. */
  function Selectors(d: Dashboard): (sel: seq<Option<AssignmentId>>)
    ensures |sel| == d.activePanels
    ensures forall i :: 0 <= i < |sel| ==> (sel[i].Some? <==> i in d.bindings)
    ensures forall i :: 0 <= i < |sel| && sel[i].Some? ==> sel[i].value == d.bindings[i]
  {
    seq(d.activePanels, i requires 0 <= i => Binding(d, i))
  }

  // ----- Selecting an assignment and loading it -----

  /** The responses a panel load sees: the assignment list (absent when the
      request fails or its body is not a list) and the student roster of the
      chosen id (absent when the request itself fails; an error body that is not
      a list renders like the empty roster, so it is given as `Some([])`). */
  datatype LoadInputs = LoadInputs(catalog: Option<seq<AssignmentId>>, roster: Option<seq<Progress.Student>>)

  datatype LoadOutcome = Loaded(students: seq<Progress.Student>) | NotFound | FetchFailed

  /** Loading a panel: look the id up in the assignment list, then fetch its roster. */
  function Load(id: AssignmentId, inputs: LoadInputs): (o: LoadOutcome)
    ensures o.Loaded? <==> inputs.catalog.Some? && id in inputs.catalog.value && inputs.roster.Some?
    ensures o.Loaded? ==> o.students == inputs.roster.value
    ensures o.NotFound? <==> inputs.catalog.Some? && id !in inputs.catalog.value
  {
    match inputs.catalog
    case None => FetchFailed
    case Some(ids) =>
      if id !in ids then NotFound
      else match inputs.roster
        case None => FetchFailed
        case Some(students) => Loaded(students)
  }

  /** The selector of panel `p` changes to `value`. A non-empty value binds the
      panel before loading, so the binding stands even when the load fails; only a
      successful load renders the roster, sends `watchAssignment(value)` to the
      server and registers the `(p, value)` listener; a reload of the same
      assignment sends the request again. The empty value unbinds the panel and
      shows the placeholder. */
  function Select(d: Dashboard, p: PanelIndex, value: AssignmentId, inputs: LoadInputs): (r: Dashboard)
    ensures value != "" ==> p in r.bindings && r.bindings[p] == value
    ensures value == "" ==> p !in r.bindings
    ensures forall q :: q != p ==> Binding(r, q) == Binding(d, q)
    ensures r.bindings.Keys == (if value == "" then d.bindings.Keys - {p} else d.bindings.Keys + {p})
    ensures r.activePanels == d.activePanels
    ensures d.listeners <= r.listeners
    ensures forall l :: l in r.listeners && l !in d.listeners ==> l == (p, value)
    ensures (p, value) in r.listeners <==>
              (p, value) in d.listeners || (value != "" && Load(value, inputs).Loaded?)
    ensures value == "" ==> ViewOf(r, p) == Placeholder
    ensures value != "" && Load(value, inputs).Loaded? ==>
              ViewOf(r, p) == Roster(value, Load(value, inputs).students)
    ensures value != "" && !Load(value, inputs).Loaded? ==> ViewOf(r, p) == ViewOf(d, p)
    ensures forall q :: q != p ==> ViewOf(r, q) == ViewOf(d, q)
    ensures r.watchesSent ==
              d.watchesSent + (if value != "" && Load(value, inputs).Loaded? then [value] else [])
  {
    if value != "" then
      var bound := d.(bindings := d.bindings[p := value]);
      match Load(value, inputs)
      case Loaded(students) =>
        bound.(views := bound.views[p := Roster(value, students)],
               listeners := bound.listeners + {(p, value)},
               watchesSent := bound.watchesSent + [value])
      case _ => bound
    else
      d.(bindings := d.bindings - {p}, views := d.views[p := Placeholder])
  }

  // ----- Push updates -----

  /** The guard of a registered handler: panel `p` takes an update for `id` only
      if a handler for `(p, id)` exists and `p` is bound to `id` right now. */
  predicate Fires(d: Dashboard, p: PanelIndex, id: AssignmentId) {
    (p, id) in d.listeners && p in d.bindings && d.bindings[p] == id
  }

  /** A panel piles up handlers (`ListenersOnlyGrow`), but the binding test lets
      the updates of only one assignment at a time through to it. */
  lemma AtMostOneIdFires(d: Dashboard, p: PanelIndex, a: AssignmentId, b: AssignmentId)
    requires Fires(d, p, a) && Fires(d, p, b)
    ensures a == b
  {
  }

  /** An `assignmentUpdate` event arrives. Every panel whose handler fires and that
      has a roster container gets the new students; the header stays. */
  function OnUpdate(d: Dashboard, id: AssignmentId, students: seq<Progress.Student>): (r: Dashboard)
    ensures r.activePanels == d.activePanels && r.bindings == d.bindings && r.listeners == d.listeners
    ensures r.watchesSent == d.watchesSent
    ensures forall p :: ViewOf(r, p) != ViewOf(d, p) ==> Fires(d, p, id) && ViewOf(d, p).Roster?
    ensures forall p :: Fires(d, p, id) && ViewOf(d, p).Roster? ==>
              ViewOf(r, p) == Roster(ViewOf(d, p).header, students)
  {
    var views := map p | p in d.views ::
      if Fires(d, p, id) && d.views[p].Roster? then d.views[p].(students := students) else d.views[p];
    d.(views := views)
  }

  // ----- Traces -----

  datatype Event =
    | LayoutClicked(n: nat)
    | Selected(panel: PanelIndex, value: AssignmentId, inputs: LoadInputs)
    | UpdateArrived(id: AssignmentId, students: seq<Progress.Student>)

  function Step(d: Dashboard, e: Event): Dashboard {
    match e
    case LayoutClicked(n) => SetLayout(d, n)
    case Selected(p, value, inputs) => Select(d, p, value, inputs)
    case UpdateArrived(id, students) => OnUpdate(d, id, students)
  }

  function Run(d: Dashboard, es: seq<Event>): Dashboard
    decreases |es|
  {
    if es == [] then d else Run(Step(d, es[0]), es[1..])
  }

  /** No event ever unregisters a handler. */
  lemma {:induction false} ListenersOnlyGrow(d: Dashboard, es: seq<Event>)
    ensures d.listeners <= Run(d, es).listeners
    decreases |es|
  {
    if es != [] {
      ListenersOnlyGrow(Step(d, es[0]), es[1..]);
    }
  }

  /** As long as nobody touches panel `p`'s selector and no update for the
      assignment `p` is bound to arrives, `p` keeps its binding and its rendering,
      whatever else happens: in particular an unbound panel, or one rebound away
      from an assignment, ignores every later update for the old assignment. */
  lemma {:induction false} PanelFrozenWithoutItsUpdates(d: Dashboard, es: seq<Event>, p: PanelIndex)
    requires forall i :: 0 <= i < |es| && es[i].Selected? ==> es[i].panel != p
    requires forall i :: 0 <= i < |es| && es[i].UpdateArrived? ==> Binding(d, p) != Some(es[i].id)
    ensures Binding(Run(d, es), p) == Binding(d, p)
    ensures ViewOf(Run(d, es), p) == ViewOf(d, p)
    decreases |es|
  {
    if es != [] {
      var d1 := Step(d, es[0]);
      assert Binding(d1, p) == Binding(d, p) && ViewOf(d1, p) == ViewOf(d, p) by {
        match es[0]
        case LayoutClicked(n) =>
        case Selected(q, value, inputs) =>
        case UpdateArrived(id, students) =>
          assert !Fires(d, p, id);
      }
      assert forall i :: 0 <= i < |es[1..]| ==> es[1..][i] == es[i + 1];
      PanelFrozenWithoutItsUpdates(d1, es[1..], p);
    }
  }

  /** Every panel that renders a roster has a registered handler for the
      assignment named in its header. */
  ghost predicate RostersHaveHandlers(d: Dashboard) {
    forall p :: p in d.views && d.views[p].Roster? ==> (p, d.views[p].header) in d.listeners
  }

  /** Every reachable state, starting from the loaded page, keeps `RostersHaveHandlers`. */
  lemma {:induction false} RostersHaveHandlersInvariant(d: Dashboard, es: seq<Event>)
    requires RostersHaveHandlers(d)
    ensures RostersHaveHandlers(Run(d, es))
    decreases |es|
  {
    if es != [] {
      var d1 := Step(d, es[0]);
      assert RostersHaveHandlers(d1) by {
        forall p | p in d1.views && d1.views[p].Roster?
          ensures (p, d1.views[p].header) in d1.listeners
        {
          assert ViewOf(d1, p).Roster?;
          match es[0]
          case LayoutClicked(n) =>
          case Selected(q, value, inputs) =>
            if p != q {
              assert ViewOf(d, p) == ViewOf(d1, p);
            } else if value != "" && !Load(value, inputs).Loaded? {
              assert ViewOf(d, p) == ViewOf(d1, p);
            }
          case UpdateArrived(id, students) =>
            assert ViewOf(d, p).header == ViewOf(d1, p).header;
        }
      }
      RostersHaveHandlersInvariant(d1, es[1..]);
    }
  }

  /** In particular every state reachable from the loaded page keeps it. */
  lemma ReachableRostersHaveHandlers(es: seq<Event>)
    ensures RostersHaveHandlers(Run(Initial, es))
  {
    RostersHaveHandlersInvariant(Initial, es);
  }

  /** Every panel binding holds a non-empty id: the empty value unbinds instead. */
  ghost predicate BindingsNonEmpty(d: Dashboard) {
    forall p :: p in d.bindings ==> d.bindings[p] != ""
  }

  lemma {:induction false} BindingsNonEmptyInvariant(d: Dashboard, es: seq<Event>)
    requires BindingsNonEmpty(d)
    ensures BindingsNonEmpty(Run(d, es))
    decreases |es|
  {
    if es != [] {
      var d1 := Step(d, es[0]);
      assert BindingsNonEmpty(d1) by {
        forall p | p in d1.bindings
          ensures d1.bindings[p] != ""
        {
          match es[0]
          case LayoutClicked(n) =>
          case Selected(q, value, inputs) =>
            if p != q {
              assert Binding(d1, p) == Binding(d, p);
            }
          case UpdateArrived(id, students) =>
        }
      }
      BindingsNonEmptyInvariant(d1, es[1..]);
    }
  }

  /** In every reachable state a binding is truthy, so the selector preselection
      test `if (panelAssignments[i])` holds exactly for the bound panels. */
  lemma ReachableBindingsNonEmpty(es: seq<Event>)
    ensures BindingsNonEmpty(Run(Initial, es))
  {
    BindingsNonEmptyInvariant(Initial, es);
  }

  /** The assignments that some panel has a registered handler for. */
  function HandledIds(d: Dashboard): set<AssignmentId> {
    set l | l in d.listeners :: l.1
  }

  /** Every `watchAssignment` request the page has sent is backed by a registered
      handler for that assignment. */
  ghost predicate WatchesHaveHandlers(d: Dashboard) {
    forall id :: id in d.watchesSent ==> id in HandledIds(d)
  }

  lemma WatchesHaveHandlersStep(d: Dashboard, e: Event)
    requires WatchesHaveHandlers(d)
    ensures WatchesHaveHandlers(Step(d, e))
  {
  }

  lemma {:induction false} WatchesHaveHandlersInvariant(d: Dashboard, es: seq<Event>)
    requires WatchesHaveHandlers(d)
    ensures WatchesHaveHandlers(Run(d, es))
    decreases |es|
  {
    if es != [] {
      WatchesHaveHandlersStep(d, es[0]);
      WatchesHaveHandlersInvariant(Step(d, es[0]), es[1..]);
    }
  }

  lemma ReachableWatchesHaveHandlers(es: seq<Event>)
    ensures WatchesHaveHandlers(Run(Initial, es))
  {
    WatchesHaveHandlersInvariant(Initial, es);
  }

  /** Reloading the same assignment into the same panel sends a second
      `watchAssignment` request for it. */
  lemma ReloadSendsAnotherWatch(rows: seq<Progress.Student>)
    ensures var inputs := LoadInputs(Some(["A1"]), Some(rows));
            Select(Select(Initial, 0, "A1", inputs), 0, "A1", inputs).watchesSent == ["A1", "A1"]
  {
  }

  /** The initial render of a load and a later push of the same rows draw the same
      bars: both render paths compute each card's bar with `Progress.RowWidths`.
      That the card code of the two paths is the same computation is how the model
      reads it; here both sides use the one function by construction. */
  lemma RenderPathsAgree(d: Dashboard, p: PanelIndex, id: AssignmentId, inputs: LoadInputs,
                         students: seq<Progress.Student>)
    requires Fires(d, p, id) && ViewOf(d, p).Roster?
    requires id != "" && Load(id, inputs) == Loaded(students)
    ensures PanelBars(OnUpdate(d, id, students), p) == PanelBars(Select(d, p, id, inputs), p)
    ensures PanelBars(OnUpdate(d, id, students), p) == Progress.RosterWidths(students)
  {
  }

  /** After rebinding panel `p` away from `prev`, an update for `prev` leaves it as it is. */
  lemma RebindThenOldUpdateIgnored(d: Dashboard, p: PanelIndex, prev: AssignmentId, value: AssignmentId,
                                   inputs: LoadInputs, students: seq<Progress.Student>)
    requires value != prev
    ensures var r := Select(d, p, value, inputs);
            ViewOf(OnUpdate(r, prev, students), p) == ViewOf(r, p)
  {
    var r := Select(d, p, value, inputs);
    assert !Fires(r, p, prev);
  }

  /** Shrinking the layout hides panels but leaves them live: a hidden panel that
      was loaded keeps its binding and still takes the updates of its assignment. */
  lemma HiddenPanelStillUpdated(d: Dashboard, n: nat, p: PanelIndex, id: AssignmentId,
                                students: seq<Progress.Student>)
    requires n <= p
    requires Fires(d, p, id) && ViewOf(d, p).Roster?
    ensures var r := OnUpdate(SetLayout(d, n), id, students);
            !Shown(r, p) && Binding(r, p) == Some(id) && ViewOf(r, p).students == students
  {
    assert Fires(SetLayout(d, n), p, id);
  }

  /** A failed load still rebinds the panel, so the panel can be bound to one
      assignment while it renders the roster of another. */
  lemma FailedLoadLeavesStaleRoster()
    ensures var loaded := Select(Initial, 0, "A1", LoadInputs(Some(["A1"]), Some([])));
            var r := Select(loaded, 0, "A2", LoadInputs(None, None));
            Binding(r, 0) == Some("A2") && ViewOf(r, 0) == Roster("A1", [])
  {
  }

  /** The handlers of a panel outlive its bindings: after loading A1 then A2, a
      failed reload of A1 rebinds the panel to A1, and the old `(0, "A1")` handler
      then pours A1's students under A2's header. */
  lemma OldHandlerRevivedByFailedReload(rows: seq<Progress.Student>)
    ensures var s1 := Select(Initial, 0, "A1", LoadInputs(Some(["A1", "A2"]), Some([])));
            var s2 := Select(s1, 0, "A2", LoadInputs(Some(["A1", "A2"]), Some([])));
            var s3 := Select(s2, 0, "A1", LoadInputs(None, None));
            ViewOf(OnUpdate(s3, "A1", rows), 0) == Roster("A2", rows)
  {
    var s1 := Select(Initial, 0, "A1", LoadInputs(Some(["A1", "A2"]), Some([])));
    var s2 := Select(s1, 0, "A2", LoadInputs(Some(["A1", "A2"]), Some([])));
    var s3 := Select(s2, 0, "A1", LoadInputs(None, None));
    assert (0, "A1") in s3.listeners;
    assert Fires(s3, 0, "A1");
  }
}

=== FILE: poller.dfy ===
/** The server's per-connection poll registry: each socket connection owns a list
    of repeating timers, one per `watchAssignment` request, each re-reading the
    roster of its assignment and pushing it to that socket. */
module Poller {
  import opened Common
  import Progress

  type ConnectionId = string

  /** The timers of every live connection, each timer given by the assignment it
      polls, in the order they were started. */
  datatype Server = Server(timers: map<ConnectionId, seq<AssignmentId>>)

  /** An `assignmentUpdate` push addressed to one socket. */
  datatype Emission = Emission(to: ConnectionId, assignmentId: AssignmentId, students: seq<Progress.Student>)

  /** How many timers connection `c` runs for assignment `id`. */
  function TimerCount(s: Server, c: ConnectionId, id: AssignmentId): nat {
    if c in s.timers then multiset(s.timers[c])[id] else 0
  }

  /** A new connection starts with no timers; an id that is already live is kept as is. */
  function Connect(s: Server, c: ConnectionId): (r: Server)
    ensures c in r.timers
    ensures c !in s.timers ==> r.timers[c] == []
    ensures forall o :: o != c ==> (o in r.timers <==> o in s.timers)
    ensures forall o :: o in s.timers ==> o in r.timers && r.timers[o] == s.timers[o]
  {
    if c in s.timers then s else Server(s.timers[c := []])
  }

  /** `watchAssignment(id)` on connection `c`: start one more timer for `id`,
      whether or not one is already running. */
  function Watch(s: Server, c: ConnectionId, id: AssignmentId): (r: Server)
    requires c in s.timers
    ensures r.timers.Keys == s.timers.Keys
    ensures multiset(r.timers[c]) == multiset(s.timers[c]) + multiset{id}
    ensures |r.timers[c]| == |s.timers[c]| + 1
    ensures TimerCount(r, c, id) == TimerCount(s, c, id) + 1
    ensures forall x :: x != id ==> TimerCount(r, c, x) == TimerCount(s, c, x)
    ensures forall o :: o in s.timers && o != c ==> r.timers[o] == s.timers[o]
  {
    Server(s.timers[c := s.timers[c] + [id]])
  }

  /** One firing of timer `i` of connection `c`, given the outcome of its roster
      query. A successful query pushes the rows, tagged with the timer's own
      assignment, to `c` alone; a failed one is swallowed and pushes nothing. The
      registry is not an input to change: the timer keeps running either way. */
  function Tick(s: Server, c: ConnectionId, i: nat, fetched: Option<seq<Progress.Student>>): (out: Option<Emission>)
    requires c in s.timers && i < |s.timers[c]|
    ensures out.Some? <==> fetched.Some?
    ensures out.Some? ==> out.value.to == c
    ensures out.Some? ==> out.value.assignmentId == s.timers[c][i] && out.value.assignmentId in s.timers[c]
    ensures out.Some? ==> out.value.students == fetched.value
  {
    match fetched
    case Some(rows) => Some(Emission(c, s.timers[c][i], rows))
    case None => None
  }

  /** `disconnect` on `c`: every timer of `c` is cleared; other connections keep
      theirs. Nothing is required of `c`'s timer list, which may be empty. */
  function Disconnect(s: Server, c: ConnectionId): (r: Server)
    ensures c !in r.timers
    ensures forall x :: TimerCount(r, c, x) == 0
    ensures r.timers.Keys == s.timers.Keys - {c}
    ensures forall o :: o in r.timers ==> r.timers[o] == s.timers[o]
  {
    Server(s.timers - {c})
  }

  // ----- Traces -----

  datatype Event =
    | Connected(conn: ConnectionId)
    | WatchRequested(conn: ConnectionId, id: AssignmentId)
    | TimerFired(conn: ConnectionId, timer: nat, fetched: Option<seq<Progress.Student>>)
    | Disconnected(conn: ConnectionId)

  /** One event against the registry. Requests on a connection that is gone are
      never delivered, and a cleared timer never fires, so those events change
      nothing and push nothing. */
  function Step(s: Server, e: Event): (r: (Server, Option<Emission>))
    ensures e.TimerFired? ==> r.0 == s
    ensures r.1.Some? ==>
              e.TimerFired? && e.conn in s.timers && e.timer < |s.timers[e.conn]|
              && r.1.value.to == e.conn && r.1.value.assignmentId == s.timers[e.conn][e.timer]
    ensures e.TimerFired? && e.conn in s.timers && e.timer < |s.timers[e.conn]| && e.fetched.Some? ==> r.1.Some?
    ensures e.WatchRequested? && e.conn !in s.timers ==> r == (s, None)
    ensures e.WatchRequested? && e.conn in s.timers ==>
              e.conn in r.0.timers
              && multiset(r.0.timers[e.conn]) == multiset(s.timers[e.conn]) + multiset{e.id}
    ensures e.Disconnected? ==> e.conn !in r.0.timers
    ensures e.Connected? ==> e.conn in r.0.timers
    ensures forall o :: o in s.timers && (e.TimerFired? || o != e.conn) ==> o in r.0.timers && r.0.timers[o] == s.timers[o]
  {
    match e
    case Connected(c) => (Connect(s, c), None)
    case WatchRequested(c, id) => if c in s.timers then (Watch(s, c, id), None) else (s, None)
    case TimerFired(c, i, fetched) =>
      if c in s.timers && i < |s.timers[c]| then (s, Tick(s, c, i, fetched)) else (s, None)
    case Disconnected(c) => (Disconnect(s, c), None)
  }

  /** A firing never changes the registry: a failed query pushes nothing and the
      timer stays registered, ready to fire again. */
  lemma TickKeepsTimer(s: Server, c: ConnectionId, i: nat, fetched: Option<seq<Progress.Student>>)
    requires c in s.timers && i < |s.timers[c]|
    ensures Step(s, TimerFired(c, i, fetched)).0 == s
    ensures fetched.None? ==> Step(s, TimerFired(c, i, fetched)).1 == None
    ensures fetched.Some? ==>
              Step(s, TimerFired(c, i, fetched)).1 == Some(Emission(c, s.timers[c][i], fetched.value))
  {
  }

  function Emitted(o: Option<Emission>): seq<Emission> {
    match o
    case Some(e) => [e]
    case None => []
  }

  /** The final registry and every push made, in order, over a trace of events. */
  function Run(s: Server, es: seq<Event>): (Server, seq<Emission>)
    decreases |es|
  {
    if es == [] then (s, [])
    else
      var (s1, o) := Step(s, es[0]);
      var (s2, rest) := Run(s1, es[1..]);
      (s2, Emitted(o) + rest)
  }

  /** `m` requests to watch the same assignment from the same connection. */
  function Repeat(e: Event, m: nat): (es: seq<Event>)
    ensures |es| == m
    ensures forall i :: 0 <= i < m ==> es[i] == e
  {
    if m == 0 then [] else [e] + Repeat(e, m - 1)
  }

  /** There is no de-duplication: `m` requests for `id` leave `m` more timers for
      `id` on that connection (`DuplicateTimersBothPush` shows two of them pushing). */
  lemma {:induction false} RepeatedWatchAccumulates(s: Server, c: ConnectionId, id: AssignmentId, m: nat)
    requires c in s.timers
    ensures c in Run(s, Repeat(WatchRequested(c, id), m)).0.timers
    ensures TimerCount(Run(s, Repeat(WatchRequested(c, id), m)).0, c, id) == TimerCount(s, c, id) + m
    decreases m
  {
    if m > 0 {
      var es := Repeat(WatchRequested(c, id), m);
      assert es[1..] == Repeat(WatchRequested(c, id), m - 1);
      RepeatedWatchAccumulates(Watch(s, c, id), c, id, m - 1);
    }
  }

  /** Two requests for the same assignment start two timers, and when each fires
      once with a successful query, `c` receives the same push twice. */
  lemma DuplicateTimersBothPush(rows: seq<Progress.Student>)
    ensures var es := [Connected("c"), WatchRequested("c", "A1"), WatchRequested("c", "A1"),
                       TimerFired("c", 0, Some(rows)), TimerFired("c", 1, Some(rows))];
            Run(Server(map[]), es).1 == [Emission("c", "A1", rows), Emission("c", "A1", rows)]
  {
    var es := [Connected("c"), WatchRequested("c", "A1"), WatchRequested("c", "A1"),
               TimerFired("c", 0, Some(rows)), TimerFired("c", 1, Some(rows))];
    var s0 := Connect(Server(map[]), "c");
    var s1 := Watch(s0, "c", "A1");
    var s2 := Watch(s1, "c", "A1");
    assert s2.timers["c"] == ["A1", "A1"];
    var push := Emission("c", "A1", rows);
    assert Step(s2, es[4]) == (s2, Some(push));
    assert Step(s2, es[3]) == (s2, Some(push));
    assert Run(s2, es[4..]) == (s2, [push]) by {
      assert es[4..][0] == es[4] && es[4..][1..] == [];
      assert Run(s2, []) == (s2, []);
      assert Emitted(Some(push)) + [] == [push];
    }
    assert Run(s2, es[3..]) == (s2, [push, push]) by {
      assert es[3..][0] == es[3] && es[3..][1..] == es[4..];
      assert Emitted(Some(push)) + [push] == [push, push];
    }
    assert Run(s1, es[2..]) == (s2, [push, push]) by {
      assert es[2..][0] == es[2] && es[2..][1..] == es[3..];
      assert Step(s1, es[2]) == (s2, None);
      assert Emitted(None) + [push, push] == [push, push];
    }
    assert Run(s0, es[1..]) == (s2, [push, push]) by {
      assert es[1..][0] == es[1] && es[1..][1..] == es[2..];
    }
  }

  /** The watch requests `ids` arriving on `c`, in order. */
  function WatchEvents(c: ConnectionId, ids: seq<AssignmentId>): (es: seq<Event>)
    ensures |es| == |ids|
    ensures forall i :: 0 <= i < |ids| ==> es[i] == WatchRequested(c, ids[i])
  {
    seq(|ids|, i requires 0 <= i < |ids| => WatchRequested(c, ids[i]))
  }

  /** A stream of watch requests on a live connection leaves one timer per
      request: the connection's timers grow by exactly the multiset of ids asked for. */
  lemma {:induction false} WatchesBecomeTimers(s: Server, c: ConnectionId, ids: seq<AssignmentId>)
    requires c in s.timers
    ensures c in Run(s, WatchEvents(c, ids)).0.timers
    ensures multiset(Run(s, WatchEvents(c, ids)).0.timers[c]) == multiset(s.timers[c]) + multiset(ids)
    decreases |ids|
  {
    if ids != [] {
      var es := WatchEvents(c, ids);
      var s1 := Watch(s, c, ids[0]);
      assert Run(s, es).0 == Run(s1, es[1..]).0 by {
        assert es[0] == WatchRequested(c, ids[0]);
        assert Step(s, es[0]) == (s1, None);
      }
      assert es[1..] == WatchEvents(c, ids[1..]);
      WatchesBecomeTimers(s1, c, ids[1..]);
      assert multiset(ids) == multiset{ids[0]} + multiset(ids[1..]) by {
        assert ids == [ids[0]] + ids[1..];
      }
    }
  }


  /** An emission from the trace `es` to connection `c` carries an assignment that
      `c` was already polling at the start or asked to watch within `es`. */
  ghost predicate WatchedBy(s: Server, es: seq<Event>, c: ConnectionId, id: AssignmentId) {
    (c in s.timers && id in s.timers[c])
    || exists i :: 0 <= i < |es| && es[i] == WatchRequested(c, id)
  }

  lemma {:induction false} EmissionsCarryWatchedIds(s: Server, es: seq<Event>)
    ensures forall e :: e in Run(s, es).1 ==> WatchedBy(s, es, e.to, e.assignmentId)
    decreases |es|
  {
    if es != [] {
      var (s1, o) := Step(s, es[0]);
      EmissionsCarryWatchedIds(s1, es[1..]);
      forall e | e in Run(s, es).1
        ensures WatchedBy(s, es, e.to, e.assignmentId)
      {
        if e in Emitted(o) {
          assert es[0].TimerFired?;
        } else {
          assert e in Run(s1, es[1..]).1;
          assert WatchedBy(s1, es[1..], e.to, e.assignmentId);
          if c1 :| c1 == e.to && c1 in s1.timers && e.assignmentId in s1.timers[c1] {
            if c1 in s.timers && e.assignmentId in s.timers[c1] {
            } else {
              assert es[0] == WatchRequested(e.to, e.assignmentId);
            }
          } else {
            var i :| 0 <= i < |es[1..]| && es[1..][i] == WatchRequested(e.to, e.assignmentId);
            assert es[i + 1] == WatchRequested(e.to, e.assignmentId);
          }
        }
      }
    }
  }

  /** Once `c` is disconnected, and as long as no connection reuses its id, no
      push ever goes to `c`. */
  lemma {:induction false} NoEmissionAfterDisconnect(s: Server, es: seq<Event>, c: ConnectionId)
    requires c !in s.timers
    requires forall i :: 0 <= i < |es| ==> es[i] != Connected(c)
    ensures c !in Run(s, es).0.timers
    ensures forall e :: e in Run(s, es).1 ==> e.to != c
    decreases |es|
  {
    if es != [] {
      var (s1, o) := Step(s, es[0]);
      assert c !in s1.timers;
      assert forall e :: e in Emitted(o) ==> e.to != c;
      assert forall i :: 0 <= i < |es[1..]| ==> es[1..][i] == es[i + 1];
      NoEmissionAfterDisconnect(s1, es[1..], c);
    }
  }

  /** Disconnecting and then running any trace that does not reconnect the same
      id pushes nothing to it. */
  lemma DisconnectSilences(s: Server, c: ConnectionId, es: seq<Event>)
    requires forall i :: 0 <= i < |es| ==> es[i] != Connected(c)
    ensures forall e :: e in Run(Disconnect(s, c), es).1 ==> e.to != c
  {
    NoEmissionAfterDisconnect(Disconnect(s, c), es, c);
  }

  /** Timer lists are per connection: a trace in which no event names `c`, other
      than firings of `c`'s own timers, leaves `c`'s timers exactly as they were. */
  lemma {:induction false} OtherConnectionsIsolated(s: Server, es: seq<Event>, c: ConnectionId)
    requires forall i :: 0 <= i < |es| && !es[i].TimerFired? ==> es[i].conn != c
    ensures (c in Run(s, es).0.timers <==> c in s.timers)
    ensures c in s.timers ==> Run(s, es).0.timers[c] == s.timers[c]
    decreases |es|
  {
    if es != [] {
      var (s1, o) := Step(s, es[0]);
      assert (c in s1.timers <==> c in s.timers);
      assert c in s.timers ==> s1.timers[c] == s.timers[c];
      assert forall i :: 0 <= i < |es[1..]| ==> es[1..][i] == es[i + 1];
      OtherConnectionsIsolated(s1, es[1..], c);
    }
  }
}

=== FILE: progress.dfy ===
/** The per-student progress bar of a roster card: three segments (correct,
    incorrect, remaining) whose widths are percentages of the question count. */
module Progress {
  import opened Common

  /** The numeric columns of one row of the student progress view that the bar
      reads. Any of them may be absent (a NULL column or a missing key). */
  datatype Student = Student(
    currentQuestion: Option<int>,
    totalQuestions: Option<int>,
    correctQuestions: Option<int>)

  /** Widths of the three bar segments, in percent. */
  datatype Widths = Widths(correct: real, incorrect: real, remaining: real) {
    function Sum(): real {
      correct + incorrect + remaining
    }
  }

  const EmptyBar := Widths(0.0, 0.0, 0.0)

  /** The `field || 0` idiom: an absent column reads as 0 (a present 0 stays 0). */
  function OrZero(f: Option<int>): int {
    match f
    case Some(x) => x
    case None => 0
  }

  /** `x` when positive, else 0: the `d > 0 ? d : 0` guard both counts use. */
  function PositivePart(x: int): (n: int)
    ensures n >= 0 && n >= x
    ensures n == 0 || n == x
  {
    if x > 0 then x else 0
  }

  /** Questions answered but not correct. */
  function Incorrect(c: int, k: int): int {
    PositivePart(c - k)
  }

  /** Questions not yet reached. */
  function Remaining(t: int, c: int): int {
    PositivePart(t - c)
  }

  /** The three segment widths for current question `c`, total `t` and correct
      count `k`: each count as a percentage of `t`, or an empty bar (all three
      widths 0) when `t` is not positive. */
  function SegmentWidths(c: int, t: int, k: int): (w: Widths)
    ensures t <= 0 ==> w == EmptyBar
    ensures t > 0 ==> w.correct * (t as real) == 100.0 * (k as real)
    ensures t > 0 ==> w.incorrect * (t as real) == 100.0 * (Incorrect(c, k) as real)
    ensures t > 0 ==> w.remaining * (t as real) == 100.0 * (Remaining(t, c) as real)
    ensures w.incorrect >= 0.0 && w.remaining >= 0.0
  {
    if t > 0 then
      var T := t as real;
      Widths((k as real / T) * 100.0,
             (Incorrect(c, k) as real / T) * 100.0,
             (Remaining(t, c) as real / T) * 100.0)
    else
      EmptyBar
  }

  /** The bar of one roster card, after reading absent columns as 0. */
  function RowWidths(s: Student): (w: Widths)
    ensures s.totalQuestions.None? ==> w == EmptyBar
    ensures s.correctQuestions.None? ==> w.correct == 0.0
    ensures s.currentQuestion.None? && s.correctQuestions.None? && OrZero(s.totalQuestions) > 0
            ==> w == Widths(0.0, 0.0, 100.0)
    ensures w.incorrect >= 0.0 && w.remaining >= 0.0
    ensures s.currentQuestion.Some? && s.totalQuestions.Some? && s.correctQuestions.Some? ==>
              w == SegmentWidths(s.currentQuestion.value, s.totalQuestions.value, s.correctQuestions.value)
  {
    var t := OrZero(s.totalQuestions);
    assert t > 0 ==> (t as real / t as real) * 100.0 == 100.0;
    SegmentWidths(OrZero(s.currentQuestion), t, OrZero(s.correctQuestions))
  }

  /** Each absent column draws exactly as a present 0 would. */
  lemma AbsentReadsAsZero(s: Student)
    ensures s.currentQuestion.None? ==> RowWidths(s) == RowWidths(s.(currentQuestion := Some(0)))
    ensures s.totalQuestions.None? ==> RowWidths(s) == RowWidths(s.(totalQuestions := Some(0)))
    ensures s.correctQuestions.None? ==> RowWidths(s) == RowWidths(s.(correctQuestions := Some(0)))
  {
  }

  /** The bars of a whole roster, card by card, in roster order. */
  function RosterWidths(students: seq<Student>): (ws: seq<Widths>)
    ensures |ws| == |students|
    ensures forall i :: 0 <= i < |students| ==> ws[i] == RowWidths(students[i])
  {
    seq(|students|, i requires 0 <= i < |students| => RowWidths(students[i]))
  }

  /** The three counts always add up to at least `t`, and to exactly `t`
      precisely when `k <= c <= t`. */
  lemma CountsCoverTotal(c: int, t: int, k: int)
    ensures k + Incorrect(c, k) + Remaining(t, c) >= t
    ensures k + Incorrect(c, k) + Remaining(t, c) == t <==> k <= c <= t
  {
  }

  /** With questions, the segments never add up to less than the whole bar, and
      they fill it exactly precisely when `k <= c <= t`; a current index past the
      total or more correct answers than answered questions overflows it. */
  lemma WidthsSumTo100Iff(c: int, t: int, k: int)
    requires t > 0
    ensures SegmentWidths(c, t, k).Sum() >= 100.0
    ensures SegmentWidths(c, t, k).Sum() == 100.0 <==> k <= c <= t
  {
    var w := SegmentWidths(c, t, k);
    var T := t as real;
    var n := k + Incorrect(c, k) + Remaining(t, c);
    CountsCoverTotal(c, t, k);
    assert w.Sum() * T == 100.0 * (n as real) by {
      assert w.Sum() * T == w.correct * T + w.incorrect * T + w.remaining * T;
    }
    if w.Sum() == 100.0 {
      assert 100.0 * T == 100.0 * (n as real);
    }
    if k <= c <= t {
      assert n == t;
      assert (w.Sum() - 100.0) * T == 0.0;
    }
  }

  /** Three example rows (18/25/15, 25/25/23 and 14/25/10 as
      current/total/correct) get bars 60/12/28, 92/8/0 and 40/16/44. */
  lemma SampleRosterWidths()
    ensures SegmentWidths(18, 25, 15) == Widths(60.0, 12.0, 28.0)
    ensures SegmentWidths(25, 25, 23) == Widths(92.0, 8.0, 0.0)
    ensures SegmentWidths(14, 25, 10) == Widths(40.0, 16.0, 44.0)
  {
  }
}

=== FILE: session.dfy ===
/** The page and the server together: the `watchAssignment` requests a page sends
    over its socket are exactly the timers the server starts for that socket. */
module Session {
  import Panels
  import Poller

  /** Replaying on a fresh connection `c` the requests that the page has sent
      after any sequence of user actions and updates leaves `c` with one timer per
      successful panel load, repeats included. */
  lemma PanelLoadsBecomeTimers(es: seq<Panels.Event>, s: Poller.Server, c: Poller.ConnectionId)
    requires c !in s.timers
    ensures var sent := Panels.Run(Panels.Initial, es).watchesSent;
            var server := Poller.Run(Poller.Connect(s, c), Poller.WatchEvents(c, sent)).0;
            c in server.timers && multiset(server.timers[c]) == multiset(sent)
  {
    var sent := Panels.Run(Panels.Initial, es).watchesSent;
    Poller.WatchesBecomeTimers(Poller.Connect(s, c), c, sent);
  }
}
